=== FILE: README.md ===
# Dragonskale game rules in Dafny

This project models the integer-valued rules of the Dragonskale action game
(a Rust/Bevy program) as pure functions over small immutable records, and
proves properties of them. It covers:

- **Resource pools** (`ResourcePools`). These are the `ResourcePool<T>` stock
  behind player health and the fire-breath resource: a pair `(max, current)`
  of `i16` values with guarded constructors, clamped add and subtract, and a
  max-rescale that floors `current` at 1.
- **Hitpoints** (`HitpointsModel`). This is the older `Hitpoints` copy of the
  same type. It is modelled as written, and lemmas show that every operation
  has the same effect as its `ResourcePool` namesake.
- **Score ledger** (`ScoreLedger`). An `i32` score and an `i16` multiplier.
  The model includes a closed form for a streak of scoring rounds, each
  `add_with_multiplier(10)` then `increase_multiplier_by_one()`, the
  pairing intended for a kill.
- **Level grid** (`Level`):
  - noise-to-tile classification (clamp, scale, floor, `From<u8> for Tile`);
  - the y-major nested generation loops;
  - the border-tile rule;
  - the grid-to-world position.
- **Fire breath** (`FireBreath`):
  - per-tick consumption and regeneration of the player's fire pool;
  - the gate that spawns fire entities only from a non-empty pool.
- **Sprite animation** (`Animation`). The cyclic frame counter of `animate_sprite`.

`Prelude` holds the shared pieces:

- `Option`, where `None` also stands for a Rust panic;
- the `i16`/`i32` ranges;
- `Min`/`Max`;
- the truncating, saturating float-to-`i16` cast that the max-rescale uses.

Integers are Dafny's unbounded `int`. Each operation whose Rust arithmetic
could overflow (a panic in a debug build) takes the needed range as a
precondition. Wrap-around is not modelled.

In a few places the code behaves differently from what a reader of the
game might expect. The model follows the code:

- `add`/`subtract` do not clamp into `[0, max]`. The code clamps `add` only
  at `max` and `subtract` only at 0. A negative amount therefore leaves the
  range; see `ResourcePools.AddNegativeLeavesRange` and
  `ResourcePools.SubtractNegativeLeavesRange`.
- `ScoreSystem::default()` is `(1, 1)`, not a zero score. The scoring-round
  lemmas start from `new(0, 1)`, a zero score with multiplier 1. No code in
  the program creates a ledger, so this start state is assumed.
- `GRID_SIZE` is 100 by 100, which gives 396 border tiles.
- The code has no inverse world-to-grid mapping. `Level.GridOf` is the
  exact inverse of the grid-to-world position (divide by `TILE_SIZE`, add
  half the grid). It is used only to state the round trip.

## Model

| member | source | states |
|---|---|---|
| `Prelude.ScaleByRatio` | src/game/resource_pool.rs:58 | The rescaled current is an `i16`. It lies in `[0, n]` when the old pool was in range, is `n` for a full pool, and is at most 0 for an empty or negative one. |
| `ResourcePools.Default` | src/game/resource_pool.rs:10-18 | The default pool is well formed, in range and full, with `max == 1`. |
| `ResourcePools.New` | src/game/resource_pool.rs:21-30 | It panics exactly when `max <= 0`. Otherwise the pool is well formed and full at `max`. |
| `ResourcePools.NewWithCurrent` | src/game/resource_pool.rs:32-42 | It panics exactly when `max <= 0`. Otherwise `current` is the requested value when that is at most `max`, and `max` when it is larger or absent. |
| `ResourcePools.SetMax` | src/game/resource_pool.rs:56-62 | A non-positive `new_max` leaves the pool untouched. Otherwise `max` becomes `new_max` and `current >= 1`. An in-range pool stays in range, a full pool stays full, and an empty one becomes 1. |
| `ResourcePools.SetCurrent` | src/game/resource_pool.rs:64-66 | `max` is unchanged. `current` is the new value capped at `max`, and is in range for a non-negative value. |
| `ResourcePools.AddMax` | src/game/resource_pool.rs:68-75 | Same effect as `set_max(max + delta)`: untouched if the sum is `<= 0`, otherwise new `max` and `current >= 1`. |
| `ResourcePools.Add` | src/game/resource_pool.rs:77-79 | For any sign of the amount, `current <= max` and `max` is unchanged. A non-negative amount keeps an in-range pool in range. |
| `ResourcePools.Subtract` | src/game/resource_pool.rs:81-83 | For any sign of the amount, `current >= 0` and `max` is unchanged. A non-negative amount keeps an in-range pool in range. |
| `ResourcePools.IsEmpty` | src/game/resource_pool.rs:85-87 | A well-formed empty pool is never full, and an in-range pool is empty exactly when it holds no unit. |
| `ResourcePools.EmptyIffDrained` | src/game/resource_pool.rs:81-87 | `is_empty()` holds exactly when subtracting one more unit changes nothing. |
| `ResourcePools.AddThenSubtract` | src/game/resource_pool.rs:77-83 | Below the cap, subtracting what was added restores the pool. |
| `ResourcePools.SetCurrentIdempotent` | src/game/resource_pool.rs:64-66 | Setting the same current value twice equals setting it once. |
| `ResourcePools.AddNegativeLeavesRange` | src/game/resource_pool.rs:77-79 | Adding -5 to `(10, 2)` gives current -3: `add` does not clamp at 0. |
| `ResourcePools.SubtractNegativeLeavesRange` | src/game/resource_pool.rs:81-83 | Subtracting -5 from `(10, 10)` gives current 15: `subtract` does not clamp at `max`. |
| `HitpointsModel.Default` | src/game/hitpoints.rs:9-13 | The default hitpoints are `max == current == 1`. |
| `HitpointsModel.New` | src/game/hitpoints.rs:16-21 | It panics exactly when `max <= 0`. Otherwise `current == max`. |
| `HitpointsModel.NewWithCurrent` | src/game/hitpoints.rs:23-29 | It panics exactly when `max <= 0`. Otherwise `current` is capped at `max`, and defaults to `max`. |
| `HitpointsModel.SetMax` | src/game/hitpoints.rs:43-49 | A no-op for a non-positive max. Otherwise it sets `max` with `current >= 1`. |
| `HitpointsModel.SetCurrent` | src/game/hitpoints.rs:51-53 | The result is `<= max`, with `max` unchanged. |
| `HitpointsModel.AddMax` | src/game/hitpoints.rs:55-62 | A no-op if the new max is non-positive. Otherwise it sets `max + hp` with `current >= 1`. |
| `HitpointsModel.Add` | src/game/hitpoints.rs:64-66 | `current <= max`, with `max` unchanged. |
| `HitpointsModel.Subtract` | src/game/hitpoints.rs:68-70 | `current >= 0`, with `max` unchanged. |
| `HitpointsModel.ToPool` | src/game/hitpoints.rs:3-7 | A hitpoints value and its pool image carry the same pair, and are well formed together. |
| `HitpointsModel.ConstructorsAgree` | src/game/hitpoints.rs:9-29 | `default`, `new` and `new_with_current` build the same pair as the pool's, and panic on the same inputs. |
| `HitpointsModel.MaxSettersAgree` | src/game/hitpoints.rs:43-62 | `set_max` and `add_max` have the same effect as the pool's. |
| `HitpointsModel.CurrentSettersAgree` | src/game/hitpoints.rs:51-70 | `set_current`, `add` and `subtract` have the same effect as the pool's. |
| `ScoreLedger.Default` | src/game/score_system.rs:10-18 | The default ledger is score 1, multiplier 1. |
| `ScoreLedger.New` | src/game/score_system.rs:21-27 | Both values are stored as given. |
| `ScoreLedger.SetCurrent` | src/game/score_system.rs:37-39 | It overwrites the score only. |
| `ScoreLedger.SetMultiplier` | src/game/score_system.rs:41-43 | It overwrites the multiplier only. |
| `ScoreLedger.IncreaseMultiplierByOne` | src/game/score_system.rs:45-47 | The multiplier rises by exactly 1 and the score is unchanged. |
| `ScoreLedger.ResetMultiplier` | src/game/score_system.rs:49-51 | The multiplier becomes 1 and the score is unchanged. |
| `ScoreLedger.ResetIdempotent` | src/game/score_system.rs:49-51 | Resetting twice is resetting once. |
| `ScoreLedger.AddWithMultiplier` | src/game/score_system.rs:53-55 | The score grows by `v * multiplier` and the multiplier is unchanged. |
| `ScoreLedger.Subtract` | src/game/score_system.rs:57-59 | The score drops by exactly `v`, with no clamping. |
| `ScoreLedger.SubtractUndoesAdd` | src/game/score_system.rs:53-59 | `subtract(v * m)` after `add_with_multiplier(v)` restores the ledger. |
| `ScoreLedger.Kill` | src/game/score_system.rs:45-55 | One scoring round, `add_with_multiplier(10)` followed by `increase_multiplier_by_one()` (the rule intended for a kill), adds `10 * multiplier` and raises the multiplier by one. |
| `ScoreLedger.NextKillWorthMore` | src/game/score_system.rs:45-55 | Without a reset in between, each scoring round adds more than the one before. |
| `ScoreLedger.Streak` | src/game/score_system.rs:45-55 | After `k` kills from `new(0, 1)`, the score is `5k(k+1)` (that is, `10 * k(k+1)/2`) and the multiplier is `k + 1`. |
| `ScoreLedger.MaxStreakIsLargest` | src/game/score_system.rs:53-55 | 20723 kills from `new(0, 1)` still fit the `i32` score, and one more would overflow it. |
| `ScoreLedger.PlayStreak` | src/game/score_system.rs:45-55 | The same closed form, reached by applying the two operations kill by kill. |
| `ScoreLedger.ThreeKillsThenHit` | src/game/score_system.rs:45-55 | Three kills give score 60 and multiplier 4. A reset then gives `(60, 1)`. |
| `Level.Discriminant` | src/game/level.rs:97-105 | `_LAST` is the only tile with discriminant 5, and every terrain tile has a smaller one, so `_LAST as u8` counts the terrain kinds. |
| `Level.TileFromIndex` | src/game/level.rs:107-121 | Indices 0 to 4 map to Water, Sand, Grass, Hills, Mountains in order. Any other index panics in a debug build and gives Water in a release build. The result is never `_LAST`. |
| `Level.TileFromDiscriminant` | src/game/level.rs:97-121 | Each terrain tile comes back from its own discriminant. |
| `Level.NoiseIndex` | src/game/level.rs:49-60 | For any noise value the index is in `0..4`. It is 0 at or below 0 and 4 from 0.8 upward; in between it is the floor of the exact product `5 * noise`. |
| `Level.NoiseNeverHitsFallback` | src/game/level.rs:57-61 | The fallback arm is never reached from noise. Both builds agree and never panic. |
| `Level.TileAt` | src/game/level.rs:53-61 | No generated cell is `_LAST`. |
| `Level.WorldPosition` | src/game/level.rs:64 | Every tile centre lies on the `TILE_SIZE` lattice, and a coordinate is non-negative exactly when the cell index is at least half the grid. |
| `Level.SamplePoint` | src/game/level.rs:53-56 | Scaling the sample point back by `MAP_SCALE` and adding the offset recovers the cell, so distinct cells are sampled at distinct points. |
| `Level.IsBorder` | src/game/level.rs:81 | A cell of the grid carries the border marker exactly when at least one of its four neighbours lies outside the grid. |
| `Level.Cell` | src/game/level.rs:53-83 | The entity of cell `(x, y)` records that cell, a terrain tile other than `_LAST`, a position whose grid cell is `(x, y)`, and the border marker exactly on the outer ring. |
| `Level.WorldGridRoundTrip` | src/game/level.rs:64 | Dividing a tile's world position by 32 and adding 50 recovers its `(x, y)`. |
| `Level.WorldPositionInjective` | src/game/level.rs:64 | Distinct cells get distinct world positions. |
| `Level.WorldPositionSpacing` | src/game/constants.rs:3-6 | Neighbouring centres are `TILE_SIZE` apart, and cell `(50, 50)` is at the origin. |
| `Level.Row` | src/game/level.rs:52 | The inner loop spawns one entity per step. |
| `Level.RowCell` | src/game/level.rs:52-81 | Step `x` of row `y` spawns cell `(x, y)`. |
| `Level.Grid` | src/game/level.rs:51-52 | After `rows` rows the loops have spawned `width * rows` entities. |
| `Level.GridCell` | src/game/level.rs:51-52 | Cell `(x, y)` is spawned at position `y * width + x`. |
| `Level.GridCoordinates` | src/game/level.rs:51-52 | Every spawned entity has in-range coordinates, and its position is `y * width + x`. |
| `Level.GridVisitsEachCellOnce` | src/game/level.rs:51-52 | Entity `i` is cell `(x, y)` if and only if `i == y * width + x`, so each cell is visited exactly once. |
| `Level.GridYMajor` | src/game/level.rs:51-52 | A later entity lies in a later row, or further along the same row. |
| `Level.RowMajorOrder` | src/game/level.rs:51-52 | In the y-major index order, a smaller index means an earlier row, or the same row and a smaller `x`. |
| `Level.CountBorderAppend` | src/game/level.rs:81-83 | Border counts add up over concatenated runs. |
| `Level.RowBorderStep` | src/game/level.rs:81-83 | Extending a row by one cell adds one to the border count exactly when that cell is on the outer ring. |
| `Level.OuterRowBorder` | src/game/level.rs:81-83 | Every cell of the first and last rows is a border tile. |
| `Level.InnerRowStart` | src/game/level.rs:81-83 | An inner row has exactly one border tile before its last cell. |
| `Level.InnerRowBorder` | src/game/level.rs:81-83 | A complete inner row has exactly two border tiles. |
| `Level.GridBorderPrefix` | src/game/level.rs:81-83 | Before the last row, the count is one full row plus two per inner row. |
| `Level.GridBorderCount` | src/game/level.rs:81-83 | A W by H grid (W, H >= 2) has `2W + 2H - 4` border tiles. |
| `Level.GenerateLevel` | src/game/level.rs:42-86 | The nested loops produce the y-major run: 10000 entities, none `_LAST`, 396 of them border tiles. |
| `FireBreath.Consume` | src/game/fire_breath.rs:95-105 | The pool loses exactly `1 * n` for `n` requests, clamped at 0. `n == 0` changes nothing for a pool in `[0, max]`, and `max` and the range are kept. |
| `FireBreath.Restore` | src/game/fire_breath.rs:107-116 | The pool gains exactly 1, capped at `max`, and only on a tick without requests. On a tick with requests it is untouched and `add` is not called, so no overflow bound applies. |
| `FireBreath.Tick` | src/game/fire_breath.rs:17-20 | One fixed tick keeps the pool in `[0, max]` with `max` unchanged. |
| `FireBreath.ConsumeRestoreCommute` | src/game/fire_breath.rs:17-20 | In each tick at most one of the two systems changes the pool, so their order does not matter. |
| `FireBreath.Run` | src/game/fire_breath.rs:95-116 | Starting in `[0, max]`, the pool stays in `[0, max]` over any sequence of ticks. |
| `FireBreath.RunBounds` | src/game/fire_breath.rs:95-116 | Over a run, the pool rises by at most the number of idle ticks and falls by at most the number of requests. |
| `FireBreath.Idle` | src/game/fire_breath.rs:107-116 | A run of `k` idle ticks has `k` ticks, none with a request. |
| `FireBreath.IdleRefills` | src/game/fire_breath.rs:107-116 | `k` idle ticks bring the pool to `min(current + k, max)`. |
| `FireBreath.Spawn` | src/game/fire_breath.rs:50-93 | With no player pool, or an empty one, nothing is spawned. Otherwise one fire entity is spawned per request, in order, with that request's damage and position. |
| `FireBreath.SpawnAll` | src/game/fire_breath.rs:64-89 | Each request yields one fire entity carrying its damage and position. |
| `FireBreath.SpawnedMatchesConsumed` | src/game/fire_breath.rs:56-104 | When the pool covers the tick's requests, the number of fire entities spawned equals the amount consumed. |
| `FireBreath.EmptyWhileRequesting` | src/game/fire_breath.rs:56-62 | An empty pool stays empty, and spawns nothing, for as long as every tick carries a request. |
| `Animation.NextIndex` | src/animation.rs:47-51 | An index at or above `last` snaps to `first`, and a lower one advances by 1. An index in `[first, last]` stays there. |
| `Animation.Animate` | src/animation.rs:40-54 | The index is unchanged unless the timer has just finished and the sprite has an atlas. In that case it becomes the next frame. |
| `Animation.Advance` | src/animation.rs:40-54 | `k` advances are `k` frames in which `just_finished` held. When `first <= last`, after at least one advance the index is never past `last`, wherever it started. |
| `Animation.AdvanceStaysInRange` | src/animation.rs:47-51 | An index in `[first, last]` stays there for any number of advances. |
| `Animation.AdvanceFromFirst` | src/animation.rs:47-51 | From `first`, `k <= last - first` advances reach `first + k`. |
| `Animation.AdvanceLast` | src/animation.rs:47-51 | `k + 1` advances are `k` advances followed by one more. |
| `Animation.AnimationCycles` | src/animation.rs:47-51 | From `first`, `last - first + 1` advances return to `first`, passing through every frame in between. |
| `Animation.SingleFrameFixed` | src/animation.rs:47-51 | When `first == last`, the index never changes. |

## Left out

- `ResourcePools.SetMax`: the `f32` computation `new_max * (current / max)` is modelled as the exact product truncated toward zero and saturated to `i16`. `f32` rounding is not modelled, so the exact value of the rescaled `current` is an approximation. The no-op guard, the new `max`, `current >= 1` and the full/empty cases do not depend on rounding.
- `ResourcePools.AddMax`: the same `f32` approximation as `SetMax`.
- `HitpointsModel.SetMax`: the same `f32` approximation as `ResourcePools.SetMax`.
- `HitpointsModel.AddMax`: the same `f32` approximation as `ResourcePools.SetMax`.
- `current_percentage` (src/game/resource_pool.rs:52-54, src/game/hitpoints.rs:39-41) returns a float used only by the HUD bars. It appears only inside the rescale.
- `Level.NoiseIndex`: the product `noise * 5` is computed exactly, while the code multiplies in `f64`. Near a multiple of 1/5 the rounded `f64` product can land on the next integer: for the `f64` nearest 0.6 the code picks Hills and the model Grass. So the "floor of `5 * noise`" clause holds of the exact product only. The range `0..4`, the clamps and the unreachable fallback arm do not depend on rounding.
- `ScoreLedger.Kill`: no code in the program awards kill points or resets the multiplier on a hit; the only scoring system, `consume_powerups` (src/game/power_up.rs:124-129), is commented out. The pairing of `add_with_multiplier(10)` with `increase_multiplier_by_one()`, the value 10 and the reset on a hit are the intended rule, not read from any call site. No code creates a ledger either, so the start state `new(0, 1)` of `Streak`, `PlayStreak`, `MaxStreakIsLargest` and `ThreeKillsThenHit` is assumed too; the only start state the program defines is `default()`, `(1, 1)`. The same holds for `NextKillWorthMore`, `Streak`, `PlayStreak` and `ThreeKillsThenHit`.
- `Animation.Advance`: a Bevy repeating timer can complete several periods in one tick, yet `just_finished()` is then true once and the index moves one frame. `Advance` counts advances (frames with `just_finished`), not timer periods; a frame that spans several periods skips animation frames, which the model does not track.
- Integer overflow: `i16`/`i32` wrap-around in release builds is not modelled. Operations instead require that their arithmetic stays in range. The debug-build overflow panic is therefore a precondition.
- `FireBreath.Tick`: a full fire pool with `max == i16::MAX` would overflow `add(1)`. Ticks therefore require `max < i16::MAX`.
- The `usize`-to-`i16` cast of the event count in `consume_fire_breath_resource` is not modelled. The count is required to fit in `i16`.
- `consume_fire_breath_resource` calls `single_mut` on every run (src/game/fire_breath.rs:102), and `restore_fire_breath_resource` calls it only when its reader is empty (src/game/fire_breath.rs:111-112). It panics unless exactly one player has a fire pool, so a missing or duplicate player panics consumption every tick and regeneration only on idle ticks. The model takes that one pool as given.
- `spawn_fire_breath` models the missing or ambiguous player (`get_single` failing) as `None`.
- Bevy scheduling is not modelled. Consumption and regeneration run in `FixedUpdate` and spawning in `Update`, each with its own event reader, and events expire after two updates. The model assumes all three systems see the same requests of a tick.
- `FireBreath.Consume`, `FireBreath.Restore` and `FireBreath.Run`: `events` is the reader's count of unexpired requests, not the number of new requests. Both resource systems only call `len()`/`is_empty()` on a reader they do not mark as read (src/game/fire_breath.rs:97-111). One request is therefore charged on every `FixedUpdate` run until it expires, and blocks regeneration for as long. `spawn_fire_breath` returns before reading when the pool is empty (src/game/fire_breath.rs:56-62), so a request can still be spawned in a later frame. The model does not track event lifetimes: each tick's count is an input.
- Fire entities' particle-system settings, collider radius, z-layer and the asset handle are presentation and physics configuration. Only damage and position are kept.
- Event damage is an `i16` copied into `ImpactDamage`, which is declared `i32` elsewhere in the program (src/game/combat.rs:57). The model keeps damage as an unbounded integer.
- Perlin noise and its random seed are not modelled. The noise source is an arbitrary function of the sample point `(x / 20, y / 20)`. Generation determinism for a fixed seed therefore holds trivially, and the NaN case of `f64::clamp` is not considered.
- The `From<Tile> for Color` colours, sprite bundles and the debug gizmo drawing of border tiles (src/game/level.rs:23-40, 124-135) are presentation.
- World positions are integers. With a 100-cell grid and 32-unit tiles every position is an exact small integer, which `f32` represents exactly.
- The `usize` overflow of `index + 1` in `animate_sprite` is not modelled, and neither is the timer itself: `just_finished` is an input.
- The Score marker component (src/game/score_system.rs:62-63) has no behaviour.
- Combat, enemies, power-ups, the HUD, menus, audio, input, the camera and the earlier duplicate generator in src/level.rs are outside the modelled core.

=== FILE: animation.dfy ===
/** Sprite-sheet animation: each time `animate_sprite` sees its timer report
    `just_finished`, the atlas index advances by one and wraps from past `last` back to `first`. */
module Animation {
  import opened Prelude

  /** `AnimationIndices { first, last }` (`usize` fields). */
  datatype AnimationIndices = AnimationIndices(first: nat, last: nat)

  /** The frame after `index`. */
  function NextIndex(a: AnimationIndices, index: nat): (r: nat)
    ensures index >= a.last ==> r == a.first
    ensures index < a.last ==> r == index + 1
    ensures a.first <= index <= a.last ==> a.first <= r <= a.last
  {
    if index + 1 > a.last then a.first else index + 1
  }

  /** `animate_sprite` for one sprite: `atlas` is the sprite's texture-atlas
      index, `None` when the sprite has no atlas. The index moves only when
      the timer reports `just_finished` (once per tick, however many
      periods that tick completed). */
  function Animate(a: AnimationIndices, justFinished: bool, atlas: Option<nat>): (r: Option<nat>)
    ensures r.Some? <==> atlas.Some?
    ensures !justFinished ==> r == atlas
    ensures justFinished && atlas.Some? ==> r.value == NextIndex(a, atlas.value)
  {
    match atlas
    case None => None
    case Some(index) => if justFinished then Some(NextIndex(a, index)) else atlas
  }

  /** The index after `k` advances, that is, `k` frames in which
      `just_finished` held. Wherever it starts, after one advance it never
      lies past `last`. */
  function Advance(a: AnimationIndices, index: nat, k: nat): (r: nat)
    ensures a.first <= a.last && k >= 1 ==> r <= a.last
    decreases k
  {
    if k == 0 then index else Advance(a, NextIndex(a, index), k - 1)
  }

  /** An index inside `[first, last]` stays inside for any number of
      advances. */
  lemma {:induction false} AdvanceStaysInRange(a: AnimationIndices, index: nat, k: nat)
    requires a.first <= index <= a.last
    ensures a.first <= Advance(a, index, k) <= a.last
    decreases k
  {
    if k > 0 {
      AdvanceStaysInRange(a, NextIndex(a, index), k - 1);
    }
  }

  /** From `first`, `k` advances with `k <= last - first` reach `first + k`. */
  lemma {:induction false} AdvanceFromFirst(a: AnimationIndices, k: nat)
    requires a.first + k <= a.last
    ensures Advance(a, a.first, k) == a.first + k
  {
    if k > 0 {
      AdvanceFromFirst(a, k - 1);
      AdvanceLast(a, a.first, k - 1);
    }
  }

  /** One more advance after `k` advances. */
  lemma {:induction false} AdvanceLast(a: AnimationIndices, index: nat, k: nat)
    ensures Advance(a, index, k + 1) == NextIndex(a, Advance(a, index, k))
    decreases k
  {
    if k > 0 {
      AdvanceLast(a, NextIndex(a, index), k - 1);
    }
  }

  /** The animation is a cycle of length `last - first + 1`: starting at
      `first`, that many advances bring the index back to `first`, having
      passed through every frame in between. */
  lemma AnimationCycles(a: AnimationIndices)
    requires a.first <= a.last
    ensures Advance(a, a.first, a.last - a.first + 1) == a.first
    ensures forall k :: 0 <= k <= a.last - a.first ==> Advance(a, a.first, k) == a.first + k
  {
    forall k | 0 <= k <= a.last - a.first
      ensures Advance(a, a.first, k) == a.first + k
    {
      AdvanceFromFirst(a, k);
    }
    AdvanceFromFirst(a, a.last - a.first);
    AdvanceLast(a, a.first, a.last - a.first);
  }

  /** A one-frame animation never moves. */
  lemma {:induction false} SingleFrameFixed(a: AnimationIndices, k: nat)
    requires a.first == a.last
    ensures Advance(a, a.first, k) == a.first
  {
    if k > 0 {
      SingleFrameFixed(a, k - 1);
    }
  }
}

=== FILE: fire_breath.dfy ===
/** The fire-breath resource. Each fixed tick the player's fire pool loses
    one unit per breath request the tick's event reader counts, and regains
    one unit when it counts none. The count (`events` below) is the number
    of unexpired requests: neither resource system marks requests as read,
    so a request is counted on every tick until the event queue drops it.
    A request becomes a fire entity only while the pool is not empty. */
module FireBreath {
  import opened Prelude
  import RP = ResourcePools

  /** `FIRE_BREATH_CONSUMPTION_RATIO`: units spent per breath request. */
  const CONSUMPTION_RATIO: int := 1

  /** `SpawnFireBreathEvent { damage, position }`. */
  datatype SpawnFireBreathEvent = SpawnFireBreathEvent(damage: int, x: real, y: real)

  /** A spawned fire entity: its `ImpactDamage` and where it was placed. */
  datatype Fire = Fire(damage: int, x: real, y: real)

  /** `consume_fire_breath_resource`: subtract the ratio times the number of
      requests the reader counts this tick. */
  function Consume(pool: RP.ResourcePool, events: nat): (r: RP.ResourcePool)
    requires RP.Wf(pool) && IsI16(events) && IsI16(pool.current - CONSUMPTION_RATIO * events)
    ensures RP.Wf(r) && r.max == pool.max && r.current >= 0
    ensures events == 0 && RP.InRange(pool) ==> r == pool
    ensures pool.current >= events ==> r.current == pool.current - events
    ensures pool.current < events ==> RP.IsEmpty(r)
    ensures RP.InRange(pool) ==> RP.InRange(r)
  {
    RP.Subtract(pool, CONSUMPTION_RATIO * events)
  }

  /** `restore_fire_breath_resource`: one unit back, only on a tick without
      requests; with requests pending `add` is not called at all. */
  function Restore(pool: RP.ResourcePool, events: nat): (r: RP.ResourcePool)
    requires RP.Wf(pool) && (events == 0 ==> IsI16(pool.current + 1))
    ensures RP.Wf(r) && r.max == pool.max
    ensures events > 0 ==> r == pool
    ensures events == 0 && pool.current < pool.max ==> r.current == pool.current + 1
    ensures events == 0 && pool.current >= pool.max ==> RP.Full(r)
    ensures RP.InRange(pool) ==> RP.InRange(r)
  {
    if events == 0 then RP.Add(pool, 1) else pool
  }

  /** What one fixed tick does to a pool that respects its bounds. */
  predicate TickDefined(pool: RP.ResourcePool, events: nat) {
    RP.Wf(pool) && RP.InRange(pool) && pool.max < I16_MAX && events <= I16_MAX
  }

  /** Both systems run in the same fixed tick on the same requests. */
  function Tick(pool: RP.ResourcePool, events: nat): (r: RP.ResourcePool)
    requires TickDefined(pool, events)
    ensures TickDefined(r, events)
    ensures r.max == pool.max
  {
    Restore(Consume(pool, events), events)
  }

  /** At most one of the two systems changes the pool in a tick, so the
      order in which they run does not matter. */
  lemma ConsumeRestoreCommute(pool: RP.ResourcePool, events: nat)
    requires TickDefined(pool, events)
    ensures Consume(pool, events) == pool || Restore(pool, events) == pool
    ensures Restore(Consume(pool, events), events) == Consume(Restore(pool, events), events)
  {
  }

  /** The pool after a run of ticks, one request count per tick. */
  function Run(pool: RP.ResourcePool, ticks: seq<nat>): (r: RP.ResourcePool)
    requires TickDefined(pool, 0)
    requires forall i :: 0 <= i < |ticks| ==> ticks[i] <= I16_MAX
    ensures TickDefined(r, 0) && r.max == pool.max
    decreases |ticks|
  {
    if |ticks| == 0 then pool else Run(Tick(pool, ticks[0]), ticks[1..])
  }

  /** The number of requests in a run, and the ticks without any. */
  function Requests(ticks: seq<nat>): nat {
    if |ticks| == 0 then 0 else ticks[0] + Requests(ticks[1..])
  }

  function IdleTicks(ticks: seq<nat>): nat {
    if |ticks| == 0 then 0 else (if ticks[0] == 0 then 1 else 0) + IdleTicks(ticks[1..])
  }

  /** Over a run the pool never rises by more than the idle ticks nor
      falls by more than the requests made. */
  lemma {:induction false} RunBounds(pool: RP.ResourcePool, ticks: seq<nat>)
    requires TickDefined(pool, 0)
    requires forall i :: 0 <= i < |ticks| ==> ticks[i] <= I16_MAX
    ensures 0 <= Run(pool, ticks).current <= pool.max
    ensures Run(pool, ticks).current <= pool.current + IdleTicks(ticks)
    ensures Run(pool, ticks).current >= pool.current - Requests(ticks)
    decreases |ticks|
  {
    if |ticks| > 0 {
      RunBounds(Tick(pool, ticks[0]), ticks[1..]);
    }
  }

  function Idle(k: nat): (ticks: seq<nat>)
    ensures |ticks| == k
    ensures forall i :: 0 <= i < k ==> ticks[i] == 0
  {
    if k == 0 then [] else [0] + Idle(k - 1)
  }

  /** Idle ticks refill the pool one unit at a time until it is full, and
      then keep it full. */
  lemma {:induction false} IdleRefills(pool: RP.ResourcePool, k: nat)
    requires TickDefined(pool, 0)
    ensures Run(pool, Idle(k)).current == Min(pool.current + k, pool.max)
    decreases k
  {
    if k > 0 {
      assert Idle(k)[1..] == Idle(k - 1);
      IdleRefills(Tick(pool, 0), k - 1);
    }
  }

  /** `spawn_fire_breath`: nothing without a single player pool or with an
      empty one; otherwise one fire entity per request, in order, carrying
      the request's damage at the request's position. */
  function Spawn(player: Option<RP.ResourcePool>, events: seq<SpawnFireBreathEvent>): (fires: seq<Fire>)
    ensures player.None? || RP.IsEmpty(player.value) ==> fires == []
    ensures player.Some? && !RP.IsEmpty(player.value) ==> |fires| == |events|
    ensures player.Some? && !RP.IsEmpty(player.value) ==>
      forall i :: 0 <= i < |events| ==>
        fires[i].damage == events[i].damage && fires[i].x == events[i].x && fires[i].y == events[i].y
  {
    match player
    case None => []
    case Some(pool) =>
      if RP.IsEmpty(pool) then [] else SpawnAll(events)
  }

  function SpawnAll(events: seq<SpawnFireBreathEvent>): (fires: seq<Fire>)
    ensures |fires| == |events|
    ensures forall i :: 0 <= i < |events| ==>
      fires[i] == Fire(events[i].damage, events[i].x, events[i].y)
  {
    if |events| == 0 then []
    else [Fire(events[0].damage, events[0].x, events[0].y)] + SpawnAll(events[1..])
  }

  /** When the pool holds enough for every request of the tick, the fire
      entities spawned are exactly what consumption takes from the pool. */
  lemma SpawnedMatchesConsumed(pool: RP.ResourcePool, events: seq<SpawnFireBreathEvent>)
    requires TickDefined(pool, |events|) && !RP.IsEmpty(pool) && |events| <= pool.current
    ensures |Spawn(Some(pool), events)| == pool.current - Consume(pool, |events|).current
  {
  }

  /** Requests keep arriving while the pool is empty (the input layer does
      not look at the pool), and each such tick both spawns nothing and
      withholds regeneration: the pool stays empty for as long as the
      player keeps requesting. */
  lemma {:induction false} EmptyWhileRequesting(pool: RP.ResourcePool, ticks: seq<nat>,
                                               events: seq<SpawnFireBreathEvent>)
    requires TickDefined(pool, 0) && RP.IsEmpty(pool)
    requires forall i :: 0 <= i < |ticks| ==> 0 < ticks[i] <= I16_MAX
    ensures RP.IsEmpty(Run(pool, ticks))
    ensures Spawn(Some(Run(pool, ticks)), events) == []
    decreases |ticks|
  {
    if |ticks| > 0 {
      EmptyWhileRequesting(Tick(pool, ticks[0]), ticks[1..], events);
    }
  }
}

=== FILE: hitpoints.dfy ===
/** `Hitpoints`, the older stand-alone copy of the resource pool that enemy
    health still uses. It is written out here as the source writes it, and
    `ToPool` with the lemmas at the end shows that each operation has the
    same effect on `(max, current)` as its `ResourcePools` namesake. */
module HitpointsModel {
  import opened Prelude
  import RP = ResourcePools

  datatype Hitpoints = Hitpoints(max: int, current: int)

  predicate Wf(h: Hitpoints) {
    IsI16(h.max) && IsI16(h.current) && h.max > 0
  }

  /** `Hitpoints::default()`. */
  function Default(): (h: Hitpoints)
    ensures Wf(h) && h.max == 1 && h.current == h.max
  {
    Hitpoints(1, 1)
  }

  /** `Hitpoints::new(max)`: `None` is the panic on `max <= 0`. */
  function New(max: int): (r: Option<Hitpoints>)
    requires IsI16(max)
    ensures r.None? <==> max <= 0
    ensures r.Some? ==> Wf(r.value) && r.value.max == max && r.value.current == max
  {
    if max <= 0 then None else Some(Hitpoints(max, max))
  }

  /** `Hitpoints::new_with_current(max, current)`. */
  function NewWithCurrent(max: int, current: Option<int>): (r: Option<Hitpoints>)
    requires IsI16(max)
    requires current.Some? ==> IsI16(current.value)
    ensures r.None? <==> max <= 0
    ensures r.Some? ==> Wf(r.value) && r.value.max == max && r.value.current <= max
    ensures r.Some? && current.None? ==> r.value.current == max
    ensures r.Some? && current.Some? && current.value <= max ==> r.value.current == current.value
  {
    if max <= 0 then None
    else
      var c := match current case Some(v) => v case None => max;
      Some(Hitpoints(max, Min(c, max)))
  }

  /** `set_max(new_max)`. */
  function SetMax(h: Hitpoints, newMax: int): (r: Hitpoints)
    requires Wf(h) && IsI16(newMax)
    ensures newMax <= 0 ==> r == h
    ensures newMax > 0 ==> Wf(r) && r.max == newMax && r.current >= 1
  {
    if newMax > 0 then
      var newCurrent := ScaleByRatio(newMax, h.current, h.max);
      Hitpoints(newMax, Max(newCurrent, 1))
    else
      h
  }

  /** `set_current(c)`. */
  function SetCurrent(h: Hitpoints, c: int): (r: Hitpoints)
    requires IsI16(c)
    ensures r.max == h.max && r.current <= h.max
    ensures c <= h.max ==> r.current == c
  {
    Hitpoints(h.max, Min(c, h.max))
  }

  /** `add_max(hp)`. */
  function AddMax(h: Hitpoints, hp: int): (r: Hitpoints)
    requires Wf(h) && IsI16(hp) && IsI16(h.max + hp)
    ensures h.max + hp <= 0 ==> r == h
    ensures h.max + hp > 0 ==> Wf(r) && r.max == h.max + hp && r.current >= 1
  {
    var newMax := h.max + hp;
    if newMax > 0 then
      var newCurrent := ScaleByRatio(newMax, h.current, h.max);
      Hitpoints(newMax, Max(newCurrent, 1))
    else
      h
  }

  /** `add(hp)`. */
  function Add(h: Hitpoints, hp: int): (r: Hitpoints)
    requires IsI16(h.current + hp)
    ensures r.max == h.max && r.current <= h.max
    ensures h.current + hp <= h.max ==> r.current == h.current + hp
  {
    Hitpoints(h.max, Min(h.current + hp, h.max))
  }

  /** `subtract(hp)`. */
  function Subtract(h: Hitpoints, hp: int): (r: Hitpoints)
    requires IsI16(h.current - hp)
    ensures r.max == h.max && r.current >= 0
    ensures h.current - hp >= 0 ==> r.current == h.current - hp
  {
    Hitpoints(h.max, Max(h.current - hp, 0))
  }

  /** The pool with the same `(max, current)`. */
  function ToPool(h: Hitpoints): (p: RP.ResourcePool)
    ensures p.max == h.max && p.current == h.current
    ensures Wf(h) <==> RP.Wf(p)
  {
    RP.ResourcePool(h.max, h.current)
  }

  function MapPool(r: Option<Hitpoints>): Option<RP.ResourcePool> {
    match r
    case None => None
    case Some(h) => Some(ToPool(h))
  }

  /** The constructors build the same pair, and panic on the same inputs. */
  lemma ConstructorsAgree(max: int, current: Option<int>)
    requires IsI16(max)
    requires current.Some? ==> IsI16(current.value)
    ensures ToPool(Default()) == RP.Default()
    ensures MapPool(New(max)) == RP.New(max)
    ensures MapPool(NewWithCurrent(max, current)) == RP.NewWithCurrent(max, current)
  {
  }

  /** The two max setters agree with the pool's. */
  lemma MaxSettersAgree(h: Hitpoints, v: int)
    requires Wf(h) && IsI16(v)
    ensures ToPool(SetMax(h, v)) == RP.SetMax(ToPool(h), v)
    ensures IsI16(h.max + v) ==> ToPool(AddMax(h, v)) == RP.AddMax(ToPool(h), v)
  {
  }

  /** The current-value mutators agree with the pool's. */
  lemma CurrentSettersAgree(h: Hitpoints, v: int)
    requires IsI16(v)
    ensures ToPool(SetCurrent(h, v)) == RP.SetCurrent(ToPool(h), v)
    ensures IsI16(h.current + v) ==> ToPool(Add(h, v)) == RP.Add(ToPool(h), v)
    ensures IsI16(h.current - v) ==> ToPool(Subtract(h, v)) == RP.Subtract(ToPool(h), v)
  {
  }
}

=== FILE: level.dfy ===
/** Level generation: every cell of the grid is classified into a terrain
    tile from a noise sample, marked as a border tile when it lies on the
    outer ring, and placed at a world position. The noise function is a
    parameter: `Setup.noise` stands for the seeded Perlin generator, applied
    to the already-scaled sample point. */
module Level {
  import opened Prelude

  /** `TILE_SIZE`: the side of one tile in world units (both axes). */
  const TILE_SIZE: int := 32
  /** `GRID_SIZE`: the grid is 100 by 100 cells. */
  const GRID_WIDTH: nat := 100
  const GRID_HEIGHT: nat := 100
  /** `HALF_GRID_SIZE`, which centres the grid on the world origin. */
  const HALF_GRID_WIDTH: int := 50
  const HALF_GRID_HEIGHT: int := 50
  /** The sample point of cell `(x, y)` is `((x - offset) / scale, ...)`. */
  const MAP_OFFSET_X: real := 0.0
  const MAP_OFFSET_Y: real := 0.0
  const MAP_SCALE: real := 20.0

  /** `Tile`, including the `_LAST` sentinel that only counts the others. */
  datatype Tile = Water | Sand | Grass | Hills | Mountains | Last

  /** `tile as u8`: the enum's discriminant. The `_LAST` sentinel comes
      after every terrain kind, so its discriminant counts them. */
  function Discriminant(t: Tile): (d: nat)
    ensures t == Last <==> d == 5
    ensures t != Last ==> d < 5
  {
    match t
    case Water => 0
    case Sand => 1
    case Grass => 2
    case Hills => 3
    case Mountains => 4
    case Last => 5
  }

  /** `Tile::_LAST as u8`, the number of real terrain kinds. */
  const TILE_COUNT: nat := Discriminant(Last)

  /** Whether the program was built with debug assertions. */
  datatype Build = Debug | Release

  /** `From<u8> for Tile`. An index with no arm panics (`None`) in a debug
      build and falls back to `Water` in a release build. */
  function TileFromIndex(v: int, build: Build): (r: Option<Tile>)
    requires 0 <= v <= 255
    ensures r.None? <==> build == Debug && v >= TILE_COUNT
    ensures r.Some? ==> r.value != Last
    ensures v < TILE_COUNT ==> r.Some? && Discriminant(r.value) == v
    ensures v >= TILE_COUNT && build == Release ==> r == Some(Water)
  {
    match v
    case 0 => Some(Water)
    case 1 => Some(Sand)
    case 2 => Some(Grass)
    case 3 => Some(Hills)
    case 4 => Some(Mountains)
    case _ => if build == Debug then None else Some(Water)
  }

  /** Every terrain tile is produced from its own discriminant. */
  lemma TileFromDiscriminant(t: Tile, build: Build)
    requires t != Last
    ensures TileFromIndex(Discriminant(t), build) == Some(t)
  {
  }

  function Clamp(v: real, lo: real, hi: real): (r: real)
    requires lo <= hi
    ensures lo <= r <= hi
    ensures lo <= v <= hi ==> r == v
  {
    if v < lo then lo else if v > hi then hi else v
  }

  /** The noise value clamped to `[0, 1]`, scaled by the tile count,
      clamped to `[0, TILE_COUNT - 1]` and floored. */
  function NoiseIndex(noise: real): (i: int)
    ensures 0 <= i < TILE_COUNT
    ensures noise <= 0.0 ==> i == 0
    ensures noise >= 0.8 ==> i == TILE_COUNT - 1
    ensures 0.0 <= noise < 0.8 ==> i as real <= noise * 5.0 < i as real + 1.0
  {
    var clamped := Clamp(noise, 0.0, 1.0);
    var scaled := Clamp(clamped * TILE_COUNT as real, 0.0, TILE_COUNT as real - 1.0);
    scaled.Floor
  }

  /** The `From<u8>` fallback arm is never reached from a noise value, so
      neither build variant panics and no cell is `_LAST`. */
  lemma NoiseNeverHitsFallback(noise: real, build: Build)
    ensures TileFromIndex(NoiseIndex(noise), build).Some?
    ensures TileFromIndex(NoiseIndex(noise), build).value != Last
    ensures TileFromIndex(NoiseIndex(noise), Debug) == TileFromIndex(NoiseIndex(noise), Release)
  {
  }

  /** Tile centres in world units (exact in `f32` at these sizes). */
  datatype WorldPos = WorldPos(x: int, y: int)

  /** `(Vec2::new(x, y) - HALF_GRID_SIZE) * TILE_SIZE`: tile centres lie on
      the `TILE_SIZE` lattice, offset so that the grid is centred on the
      origin. */
  function WorldPosition(x: int, y: int): (p: WorldPos)
    ensures p.x % TILE_SIZE == 0 && p.y % TILE_SIZE == 0
    ensures (0 <= p.x <==> x >= HALF_GRID_WIDTH) && (0 <= p.y <==> y >= HALF_GRID_HEIGHT)
  {
    WorldPos((x - HALF_GRID_WIDTH) * TILE_SIZE, (y - HALF_GRID_HEIGHT) * TILE_SIZE)
  }

  /** The grid cell whose centre is `p`: divide by the tile size, then
      re-add half the grid. */
  function GridOf(p: WorldPos): (int, int) {
    (p.x / TILE_SIZE + HALF_GRID_WIDTH, p.y / TILE_SIZE + HALF_GRID_HEIGHT)
  }

  /** Dividing a tile centre by the tile size and re-adding half the grid
      gives back its cell. */
  lemma WorldGridRoundTrip(x: int, y: int)
    ensures GridOf(WorldPosition(x, y)) == (x, y)
  {
    var p := WorldPosition(x, y);
    assert p.x / TILE_SIZE == x - HALF_GRID_WIDTH;
    assert p.y / TILE_SIZE == y - HALF_GRID_HEIGHT;
  }

  /** Distinct cells have distinct centres. */
  lemma WorldPositionInjective(x1: int, y1: int, x2: int, y2: int)
    requires WorldPosition(x1, y1) == WorldPosition(x2, y2)
    ensures x1 == x2 && y1 == y2
  {
    WorldGridRoundTrip(x1, y1);
    WorldGridRoundTrip(x2, y2);
  }

  /** Neighbouring centres are one tile apart, so tiles abut exactly; the
      cell `HALF_GRID_SIZE` sits on the origin. */
  lemma WorldPositionSpacing(x: int, y: int)
    ensures WorldPosition(x + 1, y).x - WorldPosition(x, y).x == TILE_SIZE
    ensures WorldPosition(x, y + 1).y - WorldPosition(x, y).y == TILE_SIZE
    ensures WorldPosition(HALF_GRID_WIDTH, HALF_GRID_HEIGHT) == WorldPos(0, 0)
  {
  }

  /** What one generation run is parameterised by: the seeded noise
      function, the build variant and the grid size. */
  datatype Setup = Setup(noise: (real, real) -> real, build: Build, width: nat, height: nat)

  /** One spawned tile entity: its cell, terrain, centre and whether it
      carries the `BorderTile` marker. */
  datatype TileEntity = TileEntity(x: int, y: int, tile: Tile, position: WorldPos, border: bool)

  /** The point at which the noise is sampled for cell `(x, y)`: the cell
      shifted by the map offset and shrunk by the map scale, so that it
      determines the cell back. */
  function SamplePoint(x: int, y: int): (p: (real, real))
    ensures p.0 * MAP_SCALE + MAP_OFFSET_X == x as real
    ensures p.1 * MAP_SCALE + MAP_OFFSET_Y == y as real
  {
    ((x as real - MAP_OFFSET_X) / MAP_SCALE, (y as real - MAP_OFFSET_Y) / MAP_SCALE)
  }

  /** The terrain of cell `(x, y)`. */
  function TileAt(s: Setup, x: int, y: int): (t: Tile)
    ensures t != Last
  {
    var p := SamplePoint(x, y);
    var i := NoiseIndex(s.noise(p.0, p.1));
    TileFromIndex(i, s.build).value
  }

  predicate InGrid(x: int, y: int, width: int, height: int) {
    0 <= x < width && 0 <= y < height
  }

  /** The outer ring of a `width` by `height` grid: the cells of the grid
      that miss at least one of their four neighbours. */
  function IsBorder(x: int, y: int, width: int, height: int): (b: bool)
    ensures InGrid(x, y, width, height) ==>
      (b <==> !(InGrid(x - 1, y, width, height) && InGrid(x + 1, y, width, height)
                && InGrid(x, y - 1, width, height) && InGrid(x, y + 1, width, height)))
  {
    y == 0 || x == 0 || y == height - 1 || x == width - 1
  }

  /** The entity spawned for cell `(x, y)`: a terrain tile placed at the
      cell's centre, marked when it lies on the outer ring. */
  function Cell(s: Setup, x: int, y: int): (e: TileEntity)
    ensures e.x == x && e.y == y && e.tile != Last
    ensures GridOf(e.position) == (x, y)
    ensures e.border <==> IsBorder(x, y, s.width, s.height)
  {
    WorldGridRoundTrip(x, y);
    TileEntity(x, y, TileAt(s, x, y), WorldPosition(x, y), IsBorder(x, y, s.width, s.height))
  }

  /** The entities spawned by the inner loop of row `y` after `n` steps. */
  function Row(s: Setup, y: int, n: nat): (r: seq<TileEntity>)
    ensures |r| == n
  {
    if n == 0 then [] else Row(s, y, n - 1) + [Cell(s, n - 1, y)]
  }

  /** Step `x` of the inner loop spawns cell `(x, y)`. */
  lemma {:induction false} RowCell(s: Setup, y: int, n: nat, x: int)
    requires 0 <= x < n
    ensures Row(s, y, n)[x] == Cell(s, x, y)
  {
    if x < n - 1 {
      RowCell(s, y, n - 1, x);
    }
  }

  /** The entities spawned once the outer loop has finished `rows` rows:
      one per cell of those rows. */
  function Grid(s: Setup, rows: nat): (g: seq<TileEntity>)
    ensures |g| == rows * s.width
  {
    if rows == 0 then []
    else
      assert rows * s.width == (rows - 1) * s.width + s.width;
      Grid(s, rows - 1) + Row(s, rows - 1, s.width)
  }

  /** Cell `(x, y)` is spawned at position `y * width + x` of the run. */
  lemma {:induction false} GridCell(s: Setup, rows: nat, x: int, y: int)
    requires 0 <= x < s.width && 0 <= y < rows
    ensures y * s.width + x < |Grid(s, rows)|
    ensures Grid(s, rows)[y * s.width + x] == Cell(s, x, y)
  {
    if y < rows - 1 {
      GridCell(s, rows - 1, x, y);
    } else {
      assert y * s.width == (rows - 1) * s.width;
      RowCell(s, y, s.width, x);
    }
    assert (rows - 1) * s.width + s.width == rows * s.width;
  }

  /** The entity at position `i` of the run is cell `(i % width, i / width)`
      in the form the proofs use: its coordinates are in range and
      `y * width + x == i`. */
  lemma {:induction false} GridCoordinates(s: Setup, rows: nat, i: int)
    requires 0 <= i < |Grid(s, rows)|
    ensures 0 <= Grid(s, rows)[i].x < s.width && 0 <= Grid(s, rows)[i].y < rows
    ensures Grid(s, rows)[i].y * s.width + Grid(s, rows)[i].x == i
    ensures Grid(s, rows)[i] == Cell(s, Grid(s, rows)[i].x, Grid(s, rows)[i].y)
  {
    var prefix := Grid(s, rows - 1);
    if i < |prefix| {
      GridCoordinates(s, rows - 1, i);
    } else {
      assert Grid(s, rows)[i] == Row(s, rows - 1, s.width)[i - |prefix|];
      RowCell(s, rows - 1, s.width, i - |prefix|);
    }
  }

  /** The nested loops visit every cell of the grid exactly once: the
      entity at position `i` is cell `(x, y)` if and only if
      `i == y * width + x`. */
  lemma GridVisitsEachCellOnce(s: Setup, i: int, x: int, y: int)
    requires 0 <= i < |Grid(s, s.height)|
    requires 0 <= x < s.width && 0 <= y < s.height
    ensures (Grid(s, s.height)[i].x == x && Grid(s, s.height)[i].y == y) <==> i == y * s.width + x
  {
    GridCoordinates(s, s.height, i);
    GridCell(s, s.height, x, y);
  }

  /** The loops are y-major: a later entity is in a later row, or further
      along the same row. */
  lemma GridYMajor(s: Setup, i: int, j: int)
    requires 0 <= i < j < |Grid(s, s.height)|
    ensures var a, b := Grid(s, s.height)[i], Grid(s, s.height)[j];
            a.y < b.y || (a.y == b.y && a.x < b.x)
  {
    var a, b := Grid(s, s.height)[i], Grid(s, s.height)[j];
    GridCoordinates(s, s.height, i);
    GridCoordinates(s, s.height, j);
    RowMajorOrder(s.width, a.x, a.y, b.x, b.y);
  }

  lemma RowMajorOrder(w: int, xa: int, ya: int, xb: int, yb: int)
    requires 0 <= xa < w && 0 <= xb < w && 0 <= ya && 0 <= yb
    requires ya * w + xa < yb * w + xb
    ensures ya < yb || (ya == yb && xa < xb)
  {
    if ya > yb {
      assert ya * w == yb * w + (ya - yb) * w;
      MulStep(ya - yb, w);
    }
  }

  /** `d * w >= w` for a positive `d` and a non-negative `w`. */
  lemma MulStep(d: int, w: int)
    requires d >= 1 && w >= 0
    ensures d * w >= w
  {
    assert d * w == (d - 1) * w + w;
  }

  /** The number of entities carrying the `BorderTile` marker. */
  function CountBorder(cells: seq<TileEntity>): nat {
    if |cells| == 0 then 0
    else CountBorder(cells[..|cells| - 1]) + (if cells[|cells| - 1].border then 1 else 0)
  }

  lemma {:induction false} CountBorderAppend(a: seq<TileEntity>, b: seq<TileEntity>)
    ensures CountBorder(a + b) == CountBorder(a) + CountBorder(b)
  {
    if |b| > 0 {
      assert (a + b)[..|a + b| - 1] == a + b[..|b| - 1];
      CountBorderAppend(a, b[..|b| - 1]);
    } else {
      assert a + b == a;
    }
  }

  /** Counting a row one cell further adds that cell's marker. */
  lemma RowBorderStep(s: Setup, y: int, n: nat)
    requires n >= 1
    ensures CountBorder(Row(s, y, n))
         == CountBorder(Row(s, y, n - 1)) + (if IsBorder(n - 1, y, s.width, s.height) then 1 else 0)
  {
    var c := Cell(s, n - 1, y);
    CountBorderAppend(Row(s, y, n - 1), [c]);
    assert [c][..0] == [];
  }

  /** The first `n` cells of an outer row are all border cells. */
  lemma {:induction false} OuterRowBorder(s: Setup, y: int, n: nat)
    requires y == 0 || y == s.height - 1
    ensures CountBorder(Row(s, y, n)) == n
  {
    if n > 0 {
      RowBorderStep(s, y, n);
      OuterRowBorder(s, y, n - 1);
    }
  }

  /** An inner row has a border cell at `x == 0` and none before
      `x == width - 1`. */
  lemma {:induction false} InnerRowStart(s: Setup, y: int, n: nat)
    requires 0 < y < s.height - 1 && 1 <= n < s.width
    ensures CountBorder(Row(s, y, n)) == 1
  {
    RowBorderStep(s, y, n);
    if n > 1 {
      InnerRowStart(s, y, n - 1);
    }
  }

  /** A complete inner row has exactly two border cells, its two ends. */
  lemma {:induction false} InnerRowBorder(s: Setup, y: int)
    requires 0 < y < s.height - 1 && 2 <= s.width
    ensures CountBorder(Row(s, y, s.width)) == 2
  {
    var n := s.width;
    RowBorderStep(s, y, n);
    assert IsBorder(n - 1, y, s.width, s.height);
    InnerRowStart(s, y, n - 1);
    assert CountBorder(Row(s, y, n - 1)) == 1;
  }

  /** After `rows` complete rows, with the last row not yet reached, the
      border count is one full row plus two per inner row. */
  lemma {:induction false} GridBorderPrefix(s: Setup, rows: nat)
    requires 2 <= s.width && 2 <= s.height && 1 <= rows <= s.height - 1
    ensures CountBorder(Grid(s, rows)) == s.width + 2 * (rows - 1)
  {
    CountBorderAppend(Grid(s, rows - 1), Row(s, rows - 1, s.width));
    if rows == 1 {
      OuterRowBorder(s, 0, s.width);
    } else {
      GridBorderPrefix(s, rows - 1);
      InnerRowBorder(s, rows - 1);
    }
  }

  /** A `W` by `H` grid with both sides at least 2 has `2W + 2H - 4` border
      tiles. */
  lemma GridBorderCount(s: Setup)
    requires 2 <= s.width && 2 <= s.height
    ensures CountBorder(Grid(s, s.height)) == 2 * s.width + 2 * s.height - 4
  {
    CountBorderAppend(Grid(s, s.height - 1), Row(s, s.height - 1, s.width));
    GridBorderPrefix(s, s.height - 1);
    OuterRowBorder(s, s.height - 1, s.width);
  }

  /** `generate_level`: the two nested loops, y outer and x inner, spawning
      one tile entity per cell in order. */
  method GenerateLevel(noise: (real, real) -> real, build: Build) returns (cells: seq<TileEntity>)
    ensures cells == Grid(Setup(noise, build, GRID_WIDTH, GRID_HEIGHT), GRID_HEIGHT)
    ensures |cells| == GRID_WIDTH * GRID_HEIGHT
    ensures forall i :: 0 <= i < |cells| ==> cells[i].tile != Last
    ensures CountBorder(cells) == 396
  {
    var s := Setup(noise, build, GRID_WIDTH, GRID_HEIGHT);
    cells := [];
    var y := 0;
    while y < GRID_HEIGHT
      invariant 0 <= y <= GRID_HEIGHT
      invariant cells == Grid(s, y)
    {
      var x := 0;
      while x < GRID_WIDTH
        invariant 0 <= x <= GRID_WIDTH
        invariant cells == Grid(s, y) + Row(s, y, x)
      {
        var point := SamplePoint(x, y);
        var tile := TileFromIndex(NoiseIndex(noise(point.0, point.1)), build).value;
        var border := y == 0 || x == 0 || y == GRID_HEIGHT - 1 || x == GRID_WIDTH - 1;
        cells := cells + [TileEntity(x, y, tile, WorldPosition(x, y), border)];
        x := x + 1;
      }
      y := y + 1;
    }
    GridBorderCount(s);
    forall i | 0 <= i < |cells|
      ensures cells[i].tile != Last
    {
      GridCoordinates(s, GRID_HEIGHT, i);
    }
  }
}

=== FILE: prelude.dfy ===
/** Shared vocabulary: the optional value that stands for a Rust `Option`
    or for a constructor that panics, and the machine-integer ranges of the
    fields the game stores. Dafny integers are unbounded, so every
    operation whose Rust arithmetic would overflow (a panic in a debug
    build) states the range it needs as a precondition instead. */
module Prelude {

  /** `None` is an absent value, or a panic where a Rust function panics. */
  datatype Option<+T> = None | Some(value: T)

  const I16_MIN: int := -0x8000
  const I16_MAX: int := 0x7FFF
  const I32_MIN: int := -0x8000_0000
  const I32_MAX: int := 0x7FFF_FFFF

  predicate IsI16(x: int) {
    I16_MIN <= x <= I16_MAX
  }

  predicate IsI32(x: int) {
    I32_MIN <= x <= I32_MAX
  }

  /** Rust's `a.min(b)`. */
  function Min(a: int, b: int): (r: int)
    ensures r <= a && r <= b
    ensures r == a || r == b
  {
    if a <= b then a else b
  }

  /** Rust's `a.max(b)`. */
  function Max(a: int, b: int): (r: int)
    ensures r >= a && r >= b
    ensures r == a || r == b
  {
    if a >= b then a else b
  }

  /** The exact quotient `a / b` truncated toward zero, which is what a
      float-to-integer `as` cast does to a product scaled by a ratio. */
  function TruncDiv(a: int, b: int): (q: int)
    requires b > 0
    ensures a >= 0 ==> 0 <= q && q * b <= a < q * b + b
    ensures a < 0 ==> q <= 0 && q * b - b < a <= q * b
  {
    if a >= 0 then
      DivBounds(a, b);
      a / b
    else
      DivBounds(-a, b);
      -((-a) / b)
  }

  lemma DivBounds(a: nat, b: int)
    requires b > 0
    ensures 0 <= a / b && (a / b) * b <= a < (a / b) * b + b
  {
    assert a == (a / b) * b + a % b;
  }

  /** Rust's float-to-`i16` cast saturates at the ends of the range. */
  function SaturateI16(x: int): (r: int)
    ensures IsI16(r)
    ensures IsI16(x) ==> r == x
    ensures x > I16_MAX ==> r == I16_MAX
    ensures x < I16_MIN ==> r == I16_MIN
  {
    if x > I16_MAX then I16_MAX else if x < I16_MIN then I16_MIN else x
  }

  /** `(n as f32 * (c as f32 / m as f32)) as i16`: the product of `n` and
      the ratio `c / m`, truncated toward zero and saturated to `i16`. The
      model computes the ratio exactly; f32 rounding is not modelled. */
  function ScaleByRatio(n: int, c: int, m: int): (r: int)
    requires m > 0
    ensures IsI16(r)
    ensures c <= 0 && n > 0 ==> r <= 0
    ensures 0 <= c <= m && 0 < n ==> 0 <= r <= n
    ensures c == m && IsI16(n) ==> r == n
  {
    var q := TruncDiv(n * c, m);
    ScaleBounds(n, c, m, q);
    SaturateI16(q)
  }

  lemma ScaleBounds(n: int, c: int, m: int, q: int)
    requires m > 0
    requires n * c >= 0 ==> 0 <= q && q * m <= n * c < q * m + m
    requires n * c < 0 ==> q <= 0 && q * m - m < n * c <= q * m
    ensures c <= 0 && n > 0 ==> q <= 0
    ensures 0 <= c <= m && 0 < n ==> 0 <= q <= n
    ensures c == m ==> q == n
  {
    if c <= 0 && n > 0 {
      MulSign(n, c);
    }
    if 0 <= c <= m && 0 < n {
      MulMonotone(n, c, m);
      CancelLe(q, n, m);
    }
    if c == m {
      if n * c >= 0 {
        CancelLe(q, n, m);
        CancelLt(n, q + 1, m);
      } else {
        CancelLe(n, q, m);
        CancelLt(q, n + 1, m);
      }
    }
  }

  lemma MulSign(n: int, c: int)
    requires n > 0 && c <= 0
    ensures n * c <= 0
  {
  }

  lemma MulMonotone(n: int, c: int, m: int)
    requires 0 < n && c <= m
    ensures n * c <= n * m
  {
    assert n * m - n * c == n * (m - c);
  }

  lemma CancelLe(a: int, b: int, k: int)
    requires k > 0 && a * k <= b * k
    ensures a <= b
  {
    assert (b - a) * k == b * k - a * k;
  }

  lemma CancelLt(a: int, b: int, k: int)
    requires k > 0 && a * k < b * k
    ensures a < b
  {
    assert (b - a) * k == b * k - a * k;
  }
}

=== FILE: resource_pool.dfy ===
/** The generic bounded stock behind player health and the fire-breath
    resource: a pair `(max, current)` of `i16` values with guarded
    constructors, clamped `Add`/`Subtract` and a max-rescale that keeps
    the fill ratio and floors `current` at 1. The Rust type is generic over
    a zero-sized marker (`Health`, `Fire`); the marker has no content, so
    one datatype stands for every instantiation. */
module ResourcePools {
  import opened Prelude

  datatype ResourcePool = ResourcePool(max: int, current: int)

  /** What every reachable pool satisfies: both fields are `i16` and `max`
      is positive (the constructors panic otherwise, and the max setters
      refuse a non-positive value). `current` may leave `[0, max]`. */
  predicate Wf(p: ResourcePool) {
    IsI16(p.max) && IsI16(p.current) && p.max > 0
  }

  /** The clamp invariant `0 <= current <= max` that a pool is evidently
      meant to keep. */
  predicate InRange(p: ResourcePool) {
    0 <= p.current <= p.max
  }

  predicate Full(p: ResourcePool) {
    p.current == p.max
  }

  /** `ResourcePool::default()`: a pool of one unit, full. */
  function Default(): (p: ResourcePool)
    ensures Wf(p) && InRange(p) && Full(p)
    ensures p.max == 1
  {
    ResourcePool(1, 1)
  }

  /** `ResourcePool::new(max)`: `None` is the panic on `max <= 0`. */
  function New(max: int): (r: Option<ResourcePool>)
    requires IsI16(max)
    ensures r.None? <==> max <= 0
    ensures r.Some? ==> Wf(r.value) && InRange(r.value) && Full(r.value)
    ensures r.Some? ==> r.value.max == max
  {
    if max <= 0 then None else Some(ResourcePool(max, max))
  }

  /** `ResourcePool::new_with_current(max, current)`: the requested current
      (or `max` when none is given) capped at `max`; panics on `max <= 0`. */
  function NewWithCurrent(max: int, current: Option<int>): (r: Option<ResourcePool>)
    requires IsI16(max)
    requires current.Some? ==> IsI16(current.value)
    ensures r.None? <==> max <= 0
    ensures r.Some? ==> Wf(r.value) && r.value.max == max && r.value.current <= max
    ensures r.Some? && current.None? ==> Full(r.value)
    ensures r.Some? && current.Some? && current.value <= max ==> r.value.current == current.value
    ensures r.Some? && current.Some? && current.value > max ==> Full(r.value)
  {
    if max <= 0 then None
    else
      var c := match current case Some(v) => v case None => max;
      Some(ResourcePool(max, Min(c, max)))
  }

  /** `set_max(new_max)`: ignored unless `new_max > 0`; otherwise `current`
      is rescaled to the old fill ratio, floored at 1, and `max` replaced. */
  function SetMax(p: ResourcePool, newMax: int): (r: ResourcePool)
    requires Wf(p) && IsI16(newMax)
    ensures newMax <= 0 ==> r == p
    ensures newMax > 0 ==> Wf(r) && r.max == newMax && r.current >= 1
    ensures newMax > 0 && InRange(p) ==> InRange(r)
    ensures newMax > 0 && Full(p) ==> Full(r)
    ensures newMax > 0 && p.current <= 0 ==> r.current == 1
  {
    if newMax > 0 then
      var newCurrent := ScaleByRatio(newMax, p.current, p.max);
      ResourcePool(newMax, Max(newCurrent, 1))
    else
      p
  }

  /** `set_current(c)`: `current` becomes `c` capped at `max`. */
  function SetCurrent(p: ResourcePool, c: int): (r: ResourcePool)
    requires IsI16(c)
    ensures r.max == p.max && r.current <= p.max
    ensures c <= p.max ==> r.current == c
    ensures c > p.max ==> Full(r)
    ensures Wf(p) ==> Wf(r)
    ensures Wf(p) && 0 <= c ==> InRange(r)
  {
    ResourcePool(p.max, Min(c, p.max))
  }

  /** `add_max(delta)`: as `set_max(max + delta)`, written out separately in
      the source. */
  function AddMax(p: ResourcePool, delta: int): (r: ResourcePool)
    requires Wf(p) && IsI16(delta) && IsI16(p.max + delta)
    ensures r == SetMax(p, p.max + delta)
    ensures p.max + delta <= 0 ==> r == p
    ensures p.max + delta > 0 ==> r.max == p.max + delta && r.current >= 1
  {
    var newMax := p.max + delta;
    if newMax > 0 then
      var newCurrent := ScaleByRatio(newMax, p.current, p.max);
      ResourcePool(newMax, Max(newCurrent, 1))
    else
      p
  }

  /** `add(v)`: only the upper end is clamped, whatever the sign of `v`. */
  function Add(p: ResourcePool, v: int): (r: ResourcePool)
    requires IsI16(p.current + v)
    ensures r.max == p.max && r.current <= p.max
    ensures p.current + v <= p.max ==> r.current == p.current + v
    ensures p.current + v > p.max ==> Full(r)
    ensures Wf(p) ==> Wf(r)
    ensures InRange(p) && 0 <= v ==> InRange(r) && r.current >= p.current
  {
    ResourcePool(p.max, Min(p.current + v, p.max))
  }

  /** `subtract(v)`: only the lower end is clamped, whatever the sign of `v`. */
  function Subtract(p: ResourcePool, v: int): (r: ResourcePool)
    requires IsI16(p.current - v)
    ensures r.max == p.max && r.current >= 0
    ensures p.current - v >= 0 ==> r.current == p.current - v
    ensures p.current - v < 0 ==> r.current == 0
    ensures Wf(p) ==> Wf(r)
    ensures InRange(p) && 0 <= v ==> InRange(r) && r.current <= p.current
  {
    ResourcePool(p.max, Max(p.current - v, 0))
  }

  /** `is_empty()`: nothing left to take. A well-formed empty pool is never
      full, and an in-range pool is empty exactly when it holds no unit. */
  function IsEmpty(p: ResourcePool): (b: bool)
    ensures Wf(p) && b ==> !Full(p)
    ensures InRange(p) ==> (b <==> p.current < 1)
  {
    p.current == 0
  }

  /** An in-range pool is empty exactly when subtracting one more unit
      leaves it as it is. */
  lemma EmptyIffDrained(p: ResourcePool)
    requires Wf(p) && InRange(p)
    ensures IsEmpty(p) <==> Subtract(p, 1) == p
  {
  }

  /** Within bounds, subtracting what was added restores the pool. */
  lemma AddThenSubtract(p: ResourcePool, v: int)
    requires Wf(p) && InRange(p) && 0 <= v && p.current + v <= p.max
    ensures Subtract(Add(p, v), v) == p
  {
  }

  /** Setting the current value twice is the same as setting it once. */
  lemma SetCurrentIdempotent(p: ResourcePool, c: int)
    requires IsI16(c)
    ensures SetCurrent(SetCurrent(p, c), c) == SetCurrent(p, c)
  {
  }

  /** `add` with a negative amount is not clamped at zero: the intended
      `0 <= current` invariant does not survive it. */
  lemma AddNegativeLeavesRange()
    ensures var p := ResourcePool(10, 2);
            Wf(p) && InRange(p) && Add(p, -5).current == -3 && !InRange(Add(p, -5))
  {
  }

  /** `subtract` with a negative amount is not clamped at `max`. */
  lemma SubtractNegativeLeavesRange()
    ensures var p := ResourcePool(10, 10);
            Wf(p) && InRange(p) && Subtract(p, -5).current == 15 && !InRange(Subtract(p, -5))
  {
  }
}

=== FILE: score_system.dfy ===
/** The score ledger: an `i32` running score and an `i16` multiplier. The
    ledger only offers the operations; no system of the program calls the
    scoring ones yet. The scoring rule they are evidently meant for is a
    "kill" round below: `add_with_multiplier(KILL_POINTS)` followed by
    `increase_multiplier_by_one()`, so consecutive rounds grow in value until
    `reset_multiplier()` (intended for a hit on the player). */
module ScoreLedger {
  import opened Prelude

  datatype ScoreSystem = ScoreSystem(current: int, multiplier: int)

  predicate Wf(s: ScoreSystem) {
    IsI32(s.current) && IsI16(s.multiplier)
  }

  /** Flat points of one scoring round before the multiplier is applied.
      The program defines no such constant; 10 is the intended per-kill
      value assumed by this model. */
  const KILL_POINTS: int := 10

  /** `ScoreSystem::default()`: note that the score starts at 1, not 0. */
  function Default(): (s: ScoreSystem)
    ensures Wf(s) && s.current == 1 && s.multiplier == 1
  {
    ScoreSystem(1, 1)
  }

  /** `ScoreSystem::new(current, multiplier)`: no validation at all. */
  function New(current: int, multiplier: int): (s: ScoreSystem)
    requires IsI32(current) && IsI16(multiplier)
    ensures Wf(s) && s.current == current && s.multiplier == multiplier
  {
    ScoreSystem(current, multiplier)
  }

  /** `set_current(c)`: overwrites the score only. */
  function SetCurrent(s: ScoreSystem, c: int): (r: ScoreSystem)
    requires IsI32(c)
    ensures r.current == c && r.multiplier == s.multiplier
    ensures Wf(s) ==> Wf(r)
  {
    s.(current := c)
  }

  /** `set_multiplier(m)`: overwrites the multiplier only. */
  function SetMultiplier(s: ScoreSystem, m: int): (r: ScoreSystem)
    requires IsI16(m)
    ensures r.multiplier == m && r.current == s.current
    ensures Wf(s) ==> Wf(r)
  {
    s.(multiplier := m)
  }

  /** `increase_multiplier_by_one()`. */
  function IncreaseMultiplierByOne(s: ScoreSystem): (r: ScoreSystem)
    requires IsI16(s.multiplier + 1)
    ensures r.multiplier - s.multiplier == 1 && r.current == s.current
    ensures Wf(s) ==> Wf(r)
  {
    s.(multiplier := s.multiplier + 1)
  }

  /** `reset_multiplier()`. */
  function ResetMultiplier(s: ScoreSystem): (r: ScoreSystem)
    ensures r.multiplier == 1 && r.current == s.current
    ensures Wf(s) ==> Wf(r)
  {
    s.(multiplier := 1)
  }

  /** `add_with_multiplier(v)`: the `i32` product and sum must not
      overflow. */
  function AddWithMultiplier(s: ScoreSystem, v: int): (r: ScoreSystem)
    requires IsI32(v) && IsI32(v * s.multiplier) && IsI32(s.current + v * s.multiplier)
    ensures r.current - s.current == v * s.multiplier
    ensures r.multiplier == s.multiplier
    ensures Wf(s) ==> Wf(r)
  {
    s.(current := s.current + v * s.multiplier)
  }

  /** `subtract(v)`: no clamping, the score may become negative. */
  function Subtract(s: ScoreSystem, v: int): (r: ScoreSystem)
    requires IsI32(s.current - v)
    ensures s.current - r.current == v && r.multiplier == s.multiplier
    ensures Wf(s) ==> Wf(r)
  {
    s.(current := s.current - v)
  }

  /** Subtracting the multiplied amount undoes `add_with_multiplier`. */
  lemma SubtractUndoesAdd(s: ScoreSystem, v: int)
    requires Wf(s)
    requires IsI32(v) && IsI32(v * s.multiplier) && IsI32(s.current + v * s.multiplier)
    ensures Subtract(AddWithMultiplier(s, v), v * s.multiplier) == s
  {
  }

  /** Resetting twice is resetting once. */
  lemma ResetIdempotent(s: ScoreSystem)
    ensures ResetMultiplier(ResetMultiplier(s)) == ResetMultiplier(s)
  {
  }

  /** One scoring round: `add_with_multiplier(KILL_POINTS)` then
      `increase_multiplier_by_one()`, the pairing intended for a kill. */
  function Kill(s: ScoreSystem): (r: ScoreSystem)
    requires Wf(s) && s.multiplier < I16_MAX
    requires IsI32(s.current + KILL_POINTS * s.multiplier)
    ensures r.current == s.current + KILL_POINTS * s.multiplier
    ensures r.multiplier == s.multiplier + 1 && Wf(r)
  {
    IncreaseMultiplierByOne(AddWithMultiplier(s, KILL_POINTS))
  }

  /** Without a reset in between, each scoring round adds more than the one
      before. */
  lemma NextKillWorthMore(s: ScoreSystem)
    requires Wf(s) && s.multiplier < I16_MAX - 1
    requires IsI32(s.current + KILL_POINTS * s.multiplier)
    requires IsI32(s.current + KILL_POINTS * s.multiplier + KILL_POINTS * (s.multiplier + 1))
    ensures Kill(Kill(s)).current - Kill(s).current > Kill(s).current - s.current
  {
  }

  /** The largest number of consecutive kills, starting from `new(0, 1)`,
      whose score still fits in `i32`. */
  const MAX_STREAK: nat := 20723

  /** `k` consecutive kills starting from `new(0, 1)` (an assumed start
      state: no code in the program creates a ledger), in closed form: the
      score is `10 * (1 + 2 + ... + k)` and the multiplier `k + 1`. */
  function Streak(k: nat): (s: ScoreSystem)
    requires k <= MAX_STREAK
    ensures Wf(s)
    ensures s.current == 5 * k * (k + 1) && s.multiplier == k + 1
  {
    if k == 0 then New(0, 1)
    else
      var prev := Streak(k - 1);
      StreakBound(k);
      Kill(prev)
  }

  lemma StreakBound(k: nat)
    requires 1 <= k <= MAX_STREAK
    ensures 5 * (k - 1) * k + KILL_POINTS * k == 5 * k * (k + 1)
    ensures 5 * k * (k + 1) <= I32_MAX
  {
    assert 5 * (k - 1) * k + 10 * k == 5 * k * k + 5 * k;
    assert k * (k + 1) <= MAX_STREAK * (k + 1) <= MAX_STREAK * (MAX_STREAK + 1);
  }

  /** One more kill than `MAX_STREAK` would overflow the `i32` score. */
  lemma MaxStreakIsLargest()
    ensures 5 * MAX_STREAK * (MAX_STREAK + 1) <= I32_MAX
    ensures 5 * (MAX_STREAK + 1) * (MAX_STREAK + 2) > I32_MAX
  {
  }

  /** The ledger after `k` kills from `new(0, 1)`, applying the two
      operations one kill at a time. */
  method PlayStreak(k: nat) returns (s: ScoreSystem)
    requires k <= MAX_STREAK
    ensures Wf(s)
    ensures 2 * s.current == KILL_POINTS * k * (k + 1)
    ensures s.multiplier == k + 1
  {
    s := New(0, 1);
    var i := 0;
    while i < k
      invariant 0 <= i <= k
      invariant s == Streak(i)
    {
      i := i + 1;
      StreakBound(i);
      s := AddWithMultiplier(s, KILL_POINTS);
      s := IncreaseMultiplierByOne(s);
    }
  }

  /** Three kills score 10 + 20 + 30 = 60 and leave the multiplier at 4;
      a reset then brings the multiplier back to 1 and keeps the score. */
  lemma ThreeKillsThenHit()
    ensures Streak(3).current == 60 && Streak(3).multiplier == 4
    ensures ResetMultiplier(Streak(3)) == ScoreSystem(60, 1)
  {
  }
}
